=== FILE: README.md ===
# a-pattern-restrict, modelled in Dafny

The `a-pattern-restrict` Angular directive watches one input field. It is meant to fire on every
`input`, `keyup` and `click` event. If the field's new value passes the bound regular expression, the
directive commits it, recording the value as `oldValue` and the caret offset as
`caretPosition`. If the value fails, the directive calls `preventDefault` and puts `oldValue`
back, then restores the recorded caret. It reads and writes the caret through one of three
reader and three writer strategies. The constructor picks each strategy once, by feature
detection with ordered fallback.

The project is organised in six modules:

- `Wrappers` (`wrappers.dfy`): `Option` and `Result`.
- `PatternTest` (`pattern.dfy`): `testPattern`. The JavaScript `RegExp` library is an abstract
  `RegexEngine` that says whether a pattern compiles and what `test` returns for it.
- `CaretStrategy` (`strategy.dfy`): `notThrows` and the two detection functions. Each probe is
  an explicit outcome, either "threw" or "returned a truthy or falsy value".
- `AbstractSelection` (`selection.dfy`): the window selection as a pair of offsets, anchor and
  focus, with `String(s).length = |anchor - focus|`. Extending backward is clamped at offset 0
  and moving forward is clamped at the end of the text. The module also holds the pure
  specifications of the selection-walking loops.
- `Dom` (`dom.dfy`): the input element as a class. Its `value` and `selection` fields are
  updated in place, through `val(v)`, `setSelectionRange` and `createTextRange`.
- `PatternRestrict` (`directive.dfy`): the directive. `HandlerDecision` gives the branch
  `genericEventHandler` takes. `APatternRestrict` is a class with the mutable fields `pattern`,
  `oldValue` and `caretPosition`.

The source's methods map onto the model as follows:

- `genericEventHandler`, `revertToPreviousValue`, `updateCurrentValue`, the three readers and
  the three writers are methods of the class `APatternRestrict`.
- `notThrows`, `detectGetCaretPositionMethods`, `detectSetCaretPositionMethods`, `testPattern`
  and `getValueLengthThroughSelection` compute a value and change nothing the directive keeps.
  They are the module functions `NotThrows`, `DetectGetCaretPositionMethod`,
  `DetectSetCaretPositionMethod`, `TestPattern` and `ValueLengthThroughSelection`.
- The function-valued fields `getCaretPosition` and `setCaretPosition` are constant tags of the
  class. The constructor assigns them once from the detection functions, where the source's
  detection methods assign the fields. The class methods `GetCaretPosition` and
  `SetCaretPosition` dispatch on the tags.
- The three loops of `getCaretPositionWithWindowSelection` (lines 152-159, 164-167 and 168-170)
  are split into the methods `ExtendBackwardToFieldStart`, `MoveForwardCharacters` and
  `ExtendForwardCharacters`, which that reader calls in order. The source has no such methods.
  The loops of the writer that walks the window selection stay inside that writer.

Every loop is a `while` loop with its invariants, and each method's `ensures` ties the new state
to a pure specification function.

The class invariant `Valid()` keeps four facts true across every event:

- whenever `oldValue` was committed by the directive, it passed the pattern test against the
  pattern bound at the time;
- the bound writer is the one detection picks for the element;
- a recorded caret lies within `oldValue`;
- a window-selection reader without `Selection.modify` never records a caret.

The model follows the code as written. In these places the code behaves differently from what
its names and comments suggest:

- **The handler is bound to an event that never fires.** `@HostListener` (line 24) takes a
  single event name and does not split it on spaces. `'input keyup click'` is therefore one
  event name, which the browser never dispatches, so as written the handler is never called.
  The model describes what one call of the handler does, as if it were bound to each of the
  three events.
- **`setSelectionRange` throws on the fields the guard is written for.** Lines 25-28 and 34
  show the directive is meant for non-text fields such as `number`. Those fields still have
  `setSelectionRange` as a function, so detection (line 94) binds that writer. HTML then makes
  the call throw an InvalidStateError, because selection does not apply to their type. On such
  a field, every revert with a recorded caret throws at line 107, after `preventDefault` and
  `val`. The model has this path (`InputElement.selectionApplies`, `WriterSucceeds`,
  `BoundWriterSucceeds`).
- **Writer bodies are swapped.** `setCaretPositionWithWindowSelection` (lines 110-116) calls
  `createTextRange`, and `setCaretPositionWithCreateTextRange` (lines 118-130) walks
  `window.getSelection()` with `modify`. The fallback writer is bound only to an element that
  has no `createTextRange`, so it always throws (`BoundWriterSucceeds`).
- **The selectionStart probe always throws.** Its parameter shadows the element (line 77) and
  `notThrows` calls it with no argument (line 66). So the selectionStart reader is never bound
  (`ThrowingSelectionStartProbe`). The model keeps the probe outcome as an input, so the other
  case is modelled too.
- **An invalid pattern aborts the handler.** It does not lead to a revert. `testPattern`
  throws, the exception leaves the handler, the field keeps the unchecked value and no
  `preventDefault` is called (`Decision.Abort`).
- **The Opera probe always throws.** The handler passes the element itself to
  `getValueLengthThroughSelection` (line 38). On Opera that function calls
  `input.nativeElement.focus()` (line 198), and the element has no `nativeElement`, so the call
  throws a TypeError. Every empty value on Opera therefore aborts the handler, unless the
  bad-input guard reverted it first. There is no `preventDefault` and no revert, and the
  selection-length revert is never taken (`ThrowingOperaProbe`). The model keeps the probe's
  result as an input, as it does for the selectionStart probe, so the other outcomes are
  modelled too.
- **The `document.selection` reader always measures 0.** The comment at lines 137-138 says the
  reader measures the distance from the caret to the start of the field. Line 140 instead moves
  the range's start FORWARD by the length of the text. That empties the range, so `range.text`
  has length 0 whatever the caret is (`MovedStartRangeLength`,
  `GetCaretPositionWithDocumentSelection`). A field that uses this reader records caret 0 on
  every commit, and a revert puts the caret at the start of the field.
- **The initial value never goes through the pattern test.** `oldValue` starts as the
  element's value, so a revert before the first commit puts back a value that never passed the pattern. `validatedUnder` is
  `None` until the first commit.
- **An empty committed value is not always accepted again.** A non-empty value that passes the
  test commits on every event (`PassingValueCommits`). An empty one can still be reverted by
  the bad-input guard or the Opera guard.
- **The element is a hybrid that no object in the source is.** `el.nativeElement` is the raw
  DOM element, which has no `val`, `prop` or `attr`. As written, the constructor's `val()` call
  (line 14) throws a TypeError, and so does the handler's (line 31). The model's element answers
  `val`, `prop('validity')` and `attr('type')` as a jQuery-like wrapper does. It also has
  `selectionStart`, `setSelectionRange` and `createTextRange` as a DOM input element does, which
  a jQuery-like wrapper lacks. The model describes what the directive would do on such an
  element.
- **The window reader does not restore the selection's direction.** It restores the selected
  range with the anchor at its start, whichever way the selection originally ran
  (`SelectionAfterRead`).

## Model

| member | source | states |
|---|---|---|
| `PatternTest.TestPattern` | angularjs-2-test/app/a-pattern-restrict/a-pattern-restrict.ts:204-214 | fails exactly when a bound pattern does not compile, with the message `Invalid RegEx string parsed for ngPatternRestrict: <pattern>`; an unbound pattern accepts every value; otherwise the result is the engine's match |
| `CaretStrategy.NotThrows` | angularjs-2-test/app/a-pattern-restrict/a-pattern-restrict.ts:64-70 | false when the probe throws; without `shouldReturnTruthy` true exactly when it returns; with it, true exactly when it returns something truthy |
| `CaretStrategy.DetectGetCaretPositionMethod` | angularjs-2-test/app/a-pattern-restrict/a-pattern-restrict.ts:72-90 | the reader fallback order as three if-and-only-if cases: selectionStart when its probe returns, `document.selection` when that probe throws and the second returns truthy, the window selection otherwise |
| `CaretStrategy.ThrowingSelectionStartProbe` | angularjs-2-test/app/a-pattern-restrict/a-pattern-restrict.ts:77-87 | with the selectionStart probe throwing, as it does when called as written, the reader is `document.selection` when that is truthy, else the window selection |
| `CaretStrategy.DetectSetCaretPositionMethod` | angularjs-2-test/app/a-pattern-restrict/a-pattern-restrict.ts:92-101 | the writer fallback order as three if-and-only-if cases on `setSelectionRange` and `createTextRange` being functions |
| `AbstractSelection.ScanBackward` | angularjs-2-test/app/a-pattern-restrict/a-pattern-restrict.ts:152-159 | the extend-backward do-while ends with the last recorded length equal to the anchor offset, and `didReachZero` set exactly when the focus passed over the anchor or the anchor is at offset 0 |
| `AbstractSelection.WindowSelectionCaret` | angularjs-2-test/app/a-pattern-restrict/a-pattern-restrict.ts:161 | the detected position, `selectionLength` or `selectionLength - originalSelectionLength`, is always the start of the original selection |
| `AbstractSelection.LineStartThenForward` | angularjs-2-test/app/a-pattern-restrict/a-pattern-restrict.ts:122-129 | after the extend-backward-by-line loop and `position` forward moves, the caret starts at `position` clamped to the text, and the selection stays inside the text |
| `Dom.SelectionAfterSetValue` | angularjs-2-test/app/a-pattern-restrict/a-pattern-restrict.ts:176 | setting the field to a different text leaves the caret at its end; setting the same text leaves the selection alone; the selection stays inside the text |
| `Dom.InputElement.SetValue` | angularjs-2-test/app/a-pattern-restrict/a-pattern-restrict.ts:176 | `val(v)` makes the value `v` and moves the selection as `SelectionAfterSetValue` says |
| `Dom.InputElement.SetSelectionRange` | angularjs-2-test/app/a-pattern-restrict/a-pattern-restrict.ts:107 | throws a TypeError when the element has no `setSelectionRange` and an InvalidStateError when selection does not apply to its type; otherwise sets the range clamped to the text |
| `Dom.InputElement.SelectTextRangeAt` | angularjs-2-test/app/a-pattern-restrict/a-pattern-restrict.ts:111-115 | throws a TypeError exactly when the element has no `createTextRange`; otherwise puts the caret at `position` clamped to the text |
| `PatternRestrict.ValueLengthThroughSelection` | angularjs-2-test/app/a-pattern-restrict/a-pattern-restrict.ts:191-202 | 0 unless the user agent is Opera; fails exactly when the Opera probe throws; a non-zero result is the offset the Opera probe found |
| `PatternRestrict.HandlerDecision` | angularjs-2-test/app/a-pattern-restrict/a-pattern-restrict.ts:34-49 | each branch as an if-and-only-if: revert on an empty unverifiable non-text input, revert on an empty value with a non-zero selection length (only on Opera), commit exactly when both guards are clear and the value passes, revert on a mismatch; an abort comes from an invalid pattern or a throwing Opera probe |
| `PatternRestrict.PassingValueCommits` | angularjs-2-test/app/a-pattern-restrict/a-pattern-restrict.ts:34-44 | a non-empty value that passes the test is committed whatever the browser reports, so a reverted field's next event commits |
| `PatternRestrict.ThrowingOperaProbe` | angularjs-2-test/app/a-pattern-restrict/a-pattern-restrict.ts:38-41 | on Opera, with the probe throwing as it does when called as written, an empty value never takes the selection-length revert; it aborts exactly when the bad-input guard does not fire |
| `AbstractSelection.MovedStartRangeLength` | angularjs-2-test/app/a-pattern-restrict/a-pattern-restrict.ts:139-141 | moving the range's start forward by at least the distance to the end of the text empties the range; moving it back to the field's start measures the distance to the selection's end; the length never exceeds the text |
| `PatternRestrict.ReadCaret` | angularjs-2-test/app/a-pattern-restrict/a-pattern-restrict.ts:132-173 | fails exactly for the window-selection reader without `modify`; the window-selection reader gives the selection's start; the selectionStart reader gives the selection's start where selection applies and the null caret, recorded as 0, where it does not; the `document.selection` reader always gives 0 |
| `PatternRestrict.SelectionAfterRead` | angularjs-2-test/app/a-pattern-restrict/a-pattern-restrict.ts:162-170 | a read keeps the selected range; only the window-selection reader changes the selection at all |
| `PatternRestrict.WrittenSelection` | angularjs-2-test/app/a-pattern-restrict/a-pattern-restrict.ts:106-130 | a writer that does not throw leaves the selection starting at `position` clamped to the text, and inside the text; for position 0 the writer that walks the window selection leaves the range from 0 to the old anchor selected (lines 122-129), which after a changed `val` is the whole committed text |
| `PatternRestrict.BoundWriterSucceeds` | angularjs-2-test/app/a-pattern-restrict/a-pattern-restrict.ts:92-130 | the bound writer runs without throwing exactly when the element has `setSelectionRange` and its type supports selection, or lacks `setSelectionRange` and has `createTextRange` while the selection has `modify`; the fallback writer always throws |
| `PatternRestrict.WrittenCaretIsReadCaret` | angularjs-2-test/app/a-pattern-restrict/a-pattern-restrict.ts:175-185 | writing back a caret read by the window-selection reader, or by the selectionStart reader where selection applies, with a writer that does not throw, puts the caret where it was read |
| `PatternRestrict.SelectionAfterRevert` | angularjs-2-test/app/a-pattern-restrict/a-pattern-restrict.ts:175-181 | after a revert the selection lies inside the committed text; a recorded caret written by a working writer is clamped to it; with no recorded caret the selection is where `val` left it |
| `PatternRestrict.APatternRestrict.constructor` | angularjs-2-test/app/a-pattern-restrict/a-pattern-restrict.ts:10-20 | `oldValue` is the element's value, no caret is recorded, and the reader and writer are the ones detection picks from the probes |
| `PatternRestrict.APatternRestrict.GetCaretPositionWithInputSelectionStart` | angularjs-2-test/app/a-pattern-restrict/a-pattern-restrict.ts:132-134 | the result is the selection's start where selection applies to the field's type and 0 (the null caret) where it does not, and lies within the text |
| `PatternRestrict.APatternRestrict.GetCaretPositionWithDocumentSelection` | angularjs-2-test/app/a-pattern-restrict/a-pattern-restrict.ts:136-142 | the result is the length of the range after its start moved forward by the text's length, which is always 0 |
| `PatternRestrict.APatternRestrict.ExtendBackwardToFieldStart` | angularjs-2-test/app/a-pattern-restrict/a-pattern-restrict.ts:152-159 | the do-while loop terminates with the focus at offset 0, and its `(selectionLength, didReachZero)` is `ScanBackward` of the original selection |
| `PatternRestrict.APatternRestrict.MoveForwardCharacters` | angularjs-2-test/app/a-pattern-restrict/a-pattern-restrict.ts:164-167 | `count` forward moves from the start of the field leave the caret at `count` |
| `PatternRestrict.APatternRestrict.ExtendForwardCharacters` | angularjs-2-test/app/a-pattern-restrict/a-pattern-restrict.ts:168-170 | `count` forward extends move the focus `count` characters on, and leave the anchor where it was |
| `PatternRestrict.APatternRestrict.GetCaretPositionWithWindowSelection` | angularjs-2-test/app/a-pattern-restrict/a-pattern-restrict.ts:144-173 | with `modify`, returns the start of the original selection and leaves the same range selected; without it, throws and leaves the selection alone |
| `PatternRestrict.APatternRestrict.GetCaretPosition` | angularjs-2-test/app/a-pattern-restrict/a-pattern-restrict.ts:103 | the bound reader's result is `ReadCaret` and its effect on the selection is `SelectionAfterRead` |
| `PatternRestrict.APatternRestrict.SetCaretPositionWithSetSelectionRange` | angularjs-2-test/app/a-pattern-restrict/a-pattern-restrict.ts:106-108 | throws exactly when the element has no `setSelectionRange` or its type does not support selection; otherwise the caret is at `position` clamped to the text |
| `PatternRestrict.APatternRestrict.SetCaretPositionWithWindowSelection` | angularjs-2-test/app/a-pattern-restrict/a-pattern-restrict.ts:110-116 | goes through `createTextRange` and so throws exactly without it; otherwise the caret is at `position` clamped to the text |
| `PatternRestrict.APatternRestrict.SetCaretPositionWithCreateTextRange` | angularjs-2-test/app/a-pattern-restrict/a-pattern-restrict.ts:118-130 | walks the window selection: throws exactly without `modify`; otherwise both loops terminate and the caret starts at `position` clamped to the text |
| `PatternRestrict.APatternRestrict.SetCaretPosition` | angularjs-2-test/app/a-pattern-restrict/a-pattern-restrict.ts:104 | the bound writer throws exactly when `WriterSucceeds` fails, and otherwise leaves `WrittenSelection` |
| `PatternRestrict.APatternRestrict.RevertToPreviousValue` | angularjs-2-test/app/a-pattern-restrict/a-pattern-restrict.ts:175-181 | the field shows `oldValue`; the writer runs only when a caret is recorded; a recorded caret is restored exactly when the writer works |
| `PatternRestrict.APatternRestrict.UpdateCurrentValue` | angularjs-2-test/app/a-pattern-restrict/a-pattern-restrict.ts:183-186 | `oldValue` becomes the new, passing value; the recorded caret becomes the reader's result, or stays as it was when the reader throws |
| `PatternRestrict.APatternRestrict.GenericEventHandler` | angularjs-2-test/app/a-pattern-restrict/a-pattern-restrict.ts:24-49 | the branch is `HandlerDecision`; a commit records the value and the caret and leaves the field alone; the default is prevented exactly on a revert, which keeps `oldValue` and the caret, shows `oldValue` and writes the caret back; an abort changes nothing; the committed value always passed the pattern bound when it was committed |

## Left out

- Angular wiring is not modelled: the `@Directive`, `@Input` and `@HostListener` decorators, `ElementRef` injection, and the module declaration in `angularjs-2-test/app/app.module.ts`. The host may rebind `pattern` between events, which the model allows by leaving the field assignable.
- The commented-out `ngModel` synchronisation (lines 51-61) is dead code.
- The JavaScript `RegExp` engine is abstract. Which patterns compile, and what they match, are inputs of the model.
- Real DOM semantics are abstract. This covers `setSelectionRange`, `createTextRange` and its range calls, `document.selection.createRange`, `Selection.modify` and `collapseToStart`. The selection is a pair of offsets in a one-line field, and `modify('move', 'forward', 'character')` collapses onto the focus and advances it. That choice is the model's own; the browser's behaviour for a non-collapsed selection may differ.
- GetCaretPositionWithInputSelectionStart and ReadCaret: on a field whose type has no selection, `selectionStart` is null, and the directive records null as a defined caret (lines 178 and 185). The model records 0 instead. Every writer converts null to 0: `setSelectionRange(null, null)` selects from 0, `position--` on null ends the walk at once, and `moveEnd`/`moveStart` by null move by 0. So the two record the same caret in effect. Older browsers that throw on reading `selectionStart` there are not modelled.
- WrittenCaretIsReadCaret, and the caret round-trip `ensures` of `RevertToPreviousValue` and `GenericEventHandler`: for the writer that walks the window selection, the round-trip rests on the forward move collapsing onto the focus. The extend-backward-by-line loop leaves the selection ranged from the anchor to offset 0. A browser that collapses a range to its end on a forward move would put the caret at the old anchor instead. For example, with "ab1" shown, "abc" committed and caret 1 recorded, the caret would end at 3, not 1. The model does not capture that behaviour.
- SelectionAfterRead and GetCaretPositionWithWindowSelection: the model counts offsets, `String(s).length`, `val().length` and one `modify(..., 'character')` step in the same unit, one element of the text. In the source, lengths and offsets count UTF-16 code units, but a `modify` character step passes a whole grapheme cluster. With a surrogate pair or a combining mark in the text, the steps and the lengths disagree, and the restore moves the caret. For example, with "😀a" shown and the caret at code-unit offset 2, the reader records 2, and two forward moves leave the caret at 3. The model does not capture this.
- The element's `val`, `prop('validity')` and `attr('type')` follow a jQuery-like wrapper, where the source's raw DOM element has none of them (see above). Setting a different value puts the caret at the end of the new text.
- GetCaretPositionWithDocumentSelection: the IE `TextRange` is modelled as a range over the field's text whose start is clamped to the text and drags the end along when it passes it. Under that reading, line 140 moves the start forward by the text's length, so the reader returns 0 and not the distance to the field's start that the comment at lines 137-138 intends. What IE does outside the field's text is not modelled.
- The Opera branch of `getValueLengthThroughSelection` is an input, including whether it throws. As written it always throws (`ThrowingOperaProbe`). Its `focus()` and `execCommand('selectAll')` side effects are not modelled. The branch is only reached on an empty field, where selecting everything leaves the caret at 0.
- `navigator.userAgent` and the presence of `Selection.modify` are boolean inputs (`Browser`).
- The end-to-end test in `angular-1.x/test/ngValidationTests.js` drives a real browser against the 1.x build. It is reflected only in the `Valid()` invariant that a committed value passed the pattern.
- JavaScript's `undefined` `caretPosition` and `pattern` are `None`. Offsets are unbounded naturals; the DOM clamps them to the text, which the model does as well.

=== FILE: directive.dfy ===
/** The `a-pattern-restrict` directive: it is meant to act on every input, keyup or click event, where it either commits
    the field's new value or prevents the event's default effect and puts the last committed
    value back, restoring the caret it recorded. */
module PatternRestrict {
  import opened Wrappers
  import opened PatternTest
  import opened CaretStrategy
  import opened AbstractSelection
  import opened Dom

  /** What the browser answers during one event, beyond the element's own state. */
  datatype EventContext = EventContext(
    // the Opera branch of the selection-length check: `focus()`, `execCommand('selectAll')` and
    // `focusNode.selectionStart`; it threw, or gave that offset (undefined when there is none)
    selectAllProbe: Result<Option<nat>, Thrown>
  )

  /** What `s.modify(...)` throws where the selection has no `modify` method. */
  const ModifyMissing := TypeError("modify is not a function")

  /** `getValueLengthThroughSelection`: 0 unless the user agent is Opera; on Opera, the
      `selectionStart` of the selection's focus node after selecting everything, 0 when that is
      undefined, and whatever the probe throws otherwise. */
  function ValueLengthThroughSelection(isOpera: bool, selectAllProbe: Result<Option<nat>, Thrown>): (r: Result<nat, Thrown>)
    ensures !isOpera ==> r == Success(0)
    ensures r.Failure? <==> isOpera && selectAllProbe.Failure?
    ensures r.Success? && r.value != 0 ==> isOpera && selectAllProbe == Success(Some(r.value))
  {
    if !isOpera then Success(0)
    else match selectAllProbe
      case Failure(e) => Failure(e)
      case Success(start) => Success(if start.Some? then start.value else 0)
  }

  /** Why an event was rejected. */
  datatype RevertReason =
    | UnverifiableInput  // empty value on a non-text field that reports bad input
    | SelectionNotEmpty  // empty value while the selection-length check is non-zero
    | PatternMismatch    // the pattern test returned false

  /** Which branch of the event handler runs: commit, revert, or an exception that ends the
      handler before it changes anything. */
  datatype Decision = Commit | Revert(reason: RevertReason) | Abort(thrown: Thrown)

  /** What one event did: the branch taken, whether the handler prevented the event's default
      effect, and the exception, if any, the handler let escape. */
  datatype Outcome = Outcome(decision: Decision, preventedDefault: bool, thrown: Option<Thrown>)

  /** The first guard: the browser gave up on the input, so the value cannot be matched against the pattern. */
  predicate UnverifiableEmptyInput(newValue: string, typeAttr: Option<string>, validity: Option<ValidityState>)
  {
    newValue == "" && typeAttr != Some("text") && validity.Some? && validity.value.badInput
  }

  /** Neither empty-value guard fires, so the pattern test decides. */
  predicate GuardsClear(newValue: string, typeAttr: Option<string>, validity: Option<ValidityState>,
                        browser: Browser, selectAllProbe: Result<Option<nat>, Thrown>)
  {
    !UnverifiableEmptyInput(newValue, typeAttr, validity) &&
    (newValue == "" ==> ValueLengthThroughSelection(browser.isOpera, selectAllProbe) == Success(0))
  }

  /** The branch `genericEventHandler` takes for the field value `newValue`. */
  function HandlerDecision(newValue: string, typeAttr: Option<string>, validity: Option<ValidityState>,
                           browser: Browser, selectAllProbe: Result<Option<nat>, Thrown>,
                           engine: RegexEngine, pattern: Option<string>): (d: Decision)
    ensures d == Revert(UnverifiableInput) <==> UnverifiableEmptyInput(newValue, typeAttr, validity)
    ensures d == Revert(SelectionNotEmpty) <==>
      !UnverifiableEmptyInput(newValue, typeAttr, validity) && newValue == "" &&
      ValueLengthThroughSelection(browser.isOpera, selectAllProbe).Success? &&
      ValueLengthThroughSelection(browser.isOpera, selectAllProbe).value != 0
    ensures d == Revert(SelectionNotEmpty) ==> browser.isOpera
    ensures d.Commit? <==>
      GuardsClear(newValue, typeAttr, validity, browser, selectAllProbe) && Passes(engine, pattern, newValue)
    ensures d == Revert(PatternMismatch) <==>
      GuardsClear(newValue, typeAttr, validity, browser, selectAllProbe) &&
      TestPattern(engine, pattern, newValue) == Success(false)
    ensures d.Abort? ==>
      (pattern.Some? && !engine.compiles(pattern.value) && d.thrown == ThrownString(InvalidRegExMessage(pattern.value))) ||
      (newValue == "" && browser.isOpera && selectAllProbe == Failure(d.thrown))
  {
    if UnverifiableEmptyInput(newValue, typeAttr, validity) then Revert(UnverifiableInput)
    else if newValue == "" && ValueLengthThroughSelection(browser.isOpera, selectAllProbe).Failure? then
      Abort(ValueLengthThroughSelection(browser.isOpera, selectAllProbe).error)
    else if newValue == "" && ValueLengthThroughSelection(browser.isOpera, selectAllProbe).value != 0 then
      Revert(SelectionNotEmpty)
    else match TestPattern(engine, pattern, newValue)
      case Failure(message) => Abort(ThrownString(message))
      case Success(matched) => if matched then Commit else Revert(PatternMismatch)
  }

  /** What the bound reader returns for selection `s` in a text of `limit` characters, on a field
      where the selection API applies or not. The selectionStart reader gives the start of the
      selection; on a field whose type has no selection (number, email) `selectionStart` is null,
      which the directive records as a defined caret and which every writer converts to offset 0
      (`setSelectionRange(null, null)`, `position--` on null, `moveEnd`/`moveStart` by null), so
      the model records 0 there. The window-selection reader gives the start of the selection and
      throws where the selection has no `modify`. The `document.selection` reader moves its
      range's start forward by the length of the text, which empties the range, so it always
      measures 0. */
  function ReadCaret(reader: CaretReader, browser: Browser, selectionApplies: bool, s: Selection, limit: nat)
    : (r: Result<nat, Thrown>)
    ensures r.Failure? <==> reader == ReadWithWindowSelection && !browser.hasSelectionModify
    ensures r.Success? && reader == ReadWithWindowSelection ==> r.value == s.Start()
    ensures reader == ReadWithInputSelectionStart && selectionApplies ==> r == Success(s.Start())
    ensures reader == ReadWithInputSelectionStart && !selectionApplies ==> r == Success(0)
    ensures s.Within(limit) && reader == ReadWithDocumentSelection ==> r == Success(0)
  {
    match reader
    case ReadWithInputSelectionStart => Success(if selectionApplies then s.Start() else 0)
    case ReadWithDocumentSelection => Success(MovedStartRangeLength(s, limit, limit))
    case ReadWithWindowSelection =>
      if browser.hasSelectionModify then Success(WindowSelectionCaret(s)) else Failure(ModifyMissing)
  }

  /** Where the bound reader leaves selection `s`: the window-selection reader restores the
      selected range but always with the anchor at its start. */
  function SelectionAfterRead(reader: CaretReader, browser: Browser, s: Selection): (r: Selection)
    ensures r.Start() == s.Start() && r.End() == s.End()
    ensures reader != ReadWithWindowSelection ==> r == s
  {
    if reader == ReadWithWindowSelection && browser.hasSelectionModify then Selection(s.Start(), s.End()) else s
  }

  /** Whether the writer bound by `DetectSetCaretPositionMethod` runs without throwing on an
      element whose type `selectionApplies` to or not. `setSelectionRange` throws where selection
      does not apply, and the fallback writer never succeeds: its body calls `createTextRange`,
      which it is bound only when the element lacks. */
  predicate WriterSucceeds(writer: CaretWriter, browser: Browser, selectionApplies: bool)
  {
    (writer == WriteWithSetSelectionRange && selectionApplies) ||
    (writer == WriteWithCreateTextRange && browser.hasSelectionModify)
  }

  /** Where a writer that does not throw leaves selection `s` for `position` in a text of
      `limit` characters: the caret at `position`, clamped to the text. */
  function WrittenSelection(writer: CaretWriter, s: Selection, limit: nat, position: nat): (r: Selection)
    ensures r.Start() == Min(position, limit)
    ensures s.Within(limit) ==> r.Within(limit)
  {
    if writer == WriteWithCreateTextRange then LineStartThenForward(s, limit, position)
    else Caret(Min(position, limit))
  }

  /** Where reverting leaves selection `s` of a field showing `shownText`: setting the committed
      text `committed` moves it as `val` does, then a recorded caret is written back when the
      bound writer runs without throwing, clamped to the committed text. */
  function SelectionAfterRevert(writer: CaretWriter, browser: Browser, selectionApplies: bool, caret: Option<nat>,
                                shownText: string, committed: string, s: Selection): (r: Selection)
    ensures s.Within(|shownText|) ==> r.Within(|committed|)
    ensures caret.Some? && WriterSucceeds(writer, browser, selectionApplies) ==> r.Start() == Min(caret.value, |committed|)
    ensures caret.None? ==> r == SelectionAfterSetValue(shownText, committed, s)
  {
    var shown := SelectionAfterSetValue(shownText, committed, s);
    if caret.Some? && WriterSucceeds(writer, browser, selectionApplies) then WrittenSelection(writer, shown, |committed|, caret.value)
    else shown
  }

  /** The bound writer runs without throwing exactly when the element has `setSelectionRange` and
      its type supports selection, or lacks `setSelectionRange` but has `createTextRange` while
      the window selection has `modify`. The writer bound for an element with neither calls
      `createTextRange` and so always throws, and a number or email field with
      `setSelectionRange` throws too. */
  lemma BoundWriterSucceeds(hasSetSelectionRange: bool, hasCreateTextRange: bool, browser: Browser, selectionApplies: bool)
    ensures WriterSucceeds(DetectSetCaretPositionMethod(hasSetSelectionRange, hasCreateTextRange), browser, selectionApplies) <==>
      (hasSetSelectionRange && selectionApplies) ||
      (!hasSetSelectionRange && hasCreateTextRange && browser.hasSelectionModify)
  {
  }

  /** Reading the caret with the window-selection reader, or with the selectionStart reader on a
      field where the selection applies, and writing it back with a writer that does not throw
      puts the caret back where it was read, whatever the selection is in between. */
  lemma WrittenCaretIsReadCaret(reader: CaretReader, writer: CaretWriter, browser: Browser,
                                selectionApplies: bool, s: Selection, between: Selection, limit: nat)
    requires s.Within(limit)
    requires reader == ReadWithWindowSelection || (reader == ReadWithInputSelectionStart && selectionApplies)
    requires ReadCaret(reader, browser, selectionApplies, s, limit).Success?
    requires WriterSucceeds(writer, browser, selectionApplies)
    ensures WrittenSelection(writer, between, limit, ReadCaret(reader, browser, selectionApplies, s, limit).value).Start()
      == s.Start()
  {
  }

  /** A non-empty value that passes the test commits whatever the browser reports: a revert puts
      back such a value, so the next event on the unchanged field commits it rather than
      reverting again. */
  lemma PassingValueCommits(value: string, typeAttr: Option<string>, validity: Option<ValidityState>,
                            browser: Browser, selectAllProbe: Result<Option<nat>, Thrown>,
                            engine: RegexEngine, pattern: Option<string>)
    requires value != "" && Passes(engine, pattern, value)
    ensures HandlerDecision(value, typeAttr, validity, browser, selectAllProbe, engine, pattern) == Commit
  {
  }

  /** As written, the Opera branch calls `focus` on `input.nativeElement`, and the element the
      handler passes in has no `nativeElement`, so the probe throws. With the probe throwing, an
      empty value on Opera aborts the handler unless the bad-input guard already reverted it:
      the selection-length revert is never taken. */
  lemma ThrowingOperaProbe(typeAttr: Option<string>, validity: Option<ValidityState>, browser: Browser,
                           thrown: Thrown, engine: RegexEngine, pattern: Option<string>)
    requires browser.isOpera
    ensures var d := HandlerDecision("", typeAttr, validity, browser, Failure(thrown), engine, pattern);
      d != Revert(SelectionNotEmpty) &&
      (d == Abort(thrown) <==> !UnverifiableEmptyInput("", typeAttr, validity)) &&
      (d == Revert(UnverifiableInput) <==> UnverifiableEmptyInput("", typeAttr, validity))
  {
  }

  class APatternRestrict {
    const el: InputElement
    const engine: RegexEngine
    const browser: Browser
    /** The bound `pattern` input; undefined until the host binds it, and the host may rebind it. */
    var pattern: Option<string>
    /** The last committed value. */
    var oldValue: string
    /** The caret recorded at the last commit; undefined until a commit records one. */
    var caretPosition: Option<nat>
    /** Bound once, by the constructor. */
    const getCaretPosition: CaretReader
    const setCaretPosition: CaretWriter
    /** `Some(p)` once `oldValue` was committed after passing the test against pattern `p`;
        `None` while it is still the element's initial value, which never went through the pattern test. */
    ghost var validatedUnder: Option<Option<string>>

    ghost predicate Valid()
      reads this, el
    {
      el.Valid() &&
      setCaretPosition == DetectSetCaretPositionMethod(el.hasSetSelectionRange, el.hasCreateTextRange) &&
      (validatedUnder.Some? ==> Passes(engine, validatedUnder.value, oldValue)) &&
      (getCaretPosition == ReadWithWindowSelection && !browser.hasSelectionModify ==> caretPosition.None?) &&
      (caretPosition.Some? ==> caretPosition.value <= |oldValue|)
    }

    /** Records the element's value as the committed one and binds the reader and the writer
        from the probes' outcomes. */
    constructor (el: InputElement, engine: RegexEngine, browser: Browser,
                 selectionStartProbe: ProbeOutcome, documentSelectionProbe: ProbeOutcome)
      requires el.Valid()
      ensures Valid()
      ensures this.el == el && this.engine == engine && this.browser == browser && pattern.None?
      ensures oldValue == el.value && caretPosition.None? && validatedUnder.None?
      ensures getCaretPosition == DetectGetCaretPositionMethod(selectionStartProbe, documentSelectionProbe)
      ensures setCaretPosition == DetectSetCaretPositionMethod(el.hasSetSelectionRange, el.hasCreateTextRange)
    {
      this.el := el;
      this.engine := engine;
      this.browser := browser;
      pattern := None;
      // the `|| ''` fallback of the source only replaces an undefined value; the text is a string here
      oldValue := el.value;
      caretPosition := None;
      validatedUnder := None;
      getCaretPosition := DetectGetCaretPositionMethod(selectionStartProbe, documentSelectionProbe);
      setCaretPosition := DetectSetCaretPositionMethod(el.hasSetSelectionRange, el.hasCreateTextRange);
    }

    /** `selectionStart` of the element: the start of its selection, or null (recorded as 0) on a
        field whose type has no selection. */
    method GetCaretPositionWithInputSelectionStart() returns (position: nat)
      requires el.Valid()
      ensures el.selectionApplies ==> position == el.selection.Start()
      ensures !el.selectionApplies ==> position == 0
      ensures position <= |el.value|
    {
      if el.selectionApplies {
        position := el.selection.Start();
      } else {
        position := 0;
      }
    }

    /** `document.selection.createRange()` over the current selection, its start moved forward by
        the length of the text, and the length of the range's text: always 0. */
    method GetCaretPositionWithDocumentSelection() returns (position: nat)
      requires el.Valid()
      ensures position == MovedStartRangeLength(el.selection, |el.value|, |el.value|)
      ensures position == 0
    {
      position := MovedStartRangeLength(el.selection, |el.value|, |el.value|);
    }

    /** The `do ... while` of the window reader: extends the selection backward one character
        at a time until its length stops changing, noting whether it was ever empty. */
    method ExtendBackwardToFieldStart() returns (selectionLength: nat, didReachZero: bool)
      requires el.Valid()
      modifies el`selection
      ensures el.selection == Selection(old(el.selection).anchor, 0)
      ensures (selectionLength, didReachZero) == ScanBackward(old(el.selection), false)
    {
      ghost var s0 := el.selection;
      selectionLength := 0;
      didReachZero := false;
      var repeat := true;
      while repeat
        invariant el.selection.anchor == s0.anchor && el.selection.focus <= s0.focus
        invariant didReachZero == ((s0.anchor < s0.focus && el.selection.focus <= s0.anchor) || (!repeat && s0.anchor == 0))
        invariant !repeat ==> el.selection.focus == 0 && selectionLength == s0.anchor
        decreases el.selection.focus, repeat
      {
        selectionLength := el.selection.Length();
        el.selection := el.selection.ExtendBackwardCharacter();
        if el.selection.Length() == 0 {
          didReachZero := true;
        }
        repeat := selectionLength != el.selection.Length();
      }
    }

    /** The first `for` loop of the window reader: moves the collapsed caret forward `count`
        characters from the start of the field. */
    method MoveForwardCharacters(count: nat)
      requires el.Valid() && el.selection == Caret(0) && count <= |el.value|
      modifies el`selection
      ensures el.selection == Caret(count)
    {
      var counter: nat := count;
      while counter > 0
        invariant counter <= count
        invariant el.selection == Caret(count - counter)
      {
        counter := counter - 1;
        el.selection := el.selection.MoveForwardCharacter(|el.value|);
      }
    }

    /** The second `for` loop of the window reader: extends the selection forward `count`
        characters. */
    method ExtendForwardCharacters(count: nat)
      requires el.Valid() && el.selection.focus + count <= |el.value|
      modifies el`selection
      ensures el.selection == Selection(old(el.selection).anchor, old(el.selection).focus + count)
    {
      ghost var s0 := el.selection;
      var counter: nat := count;
      while counter > 0
        invariant counter <= count
        invariant el.selection == Selection(s0.anchor, s0.focus + (count - counter))
      {
        counter := counter - 1;
        el.selection := el.selection.ExtendForwardCharacter(|el.value|);
      }
    }

    /** Walks the selection back to the start of the field one character at a time, works out
        the caret from the lengths it saw, then collapses the selection to the start and moves
        and extends it forward again. */
    method GetCaretPositionWithWindowSelection() returns (r: Result<nat, Thrown>)
      requires el.Valid()
      modifies el`selection
      ensures el.Valid()
      ensures browser.hasSelectionModify ==> r == Success(WindowSelectionCaret(old(el.selection)))
      ensures browser.hasSelectionModify ==> r == Success(old(el.selection).Start())
      ensures browser.hasSelectionModify ==> el.selection == Selection(old(el.selection).Start(), old(el.selection).End())
      ensures !browser.hasSelectionModify ==> r == Failure(ModifyMissing) && el.selection == old(el.selection)
    {
      if !browser.hasSelectionModify {
        // `String(s).length` is read, then the first `modify` call throws
        return Failure(ModifyMissing);
      }
      ghost var s0 := el.selection;
      var originalSelectionLength: nat := el.selection.Length();
      var selectionLength, didReachZero := ExtendBackwardToFieldStart();
      var detectedCaretPosition := if didReachZero then selectionLength else selectionLength - originalSelectionLength;
      assert detectedCaretPosition == WindowSelectionCaret(s0) == s0.Start();
      el.selection := el.selection.CollapseToStart();
      MoveForwardCharacters(detectedCaretPosition);
      ExtendForwardCharacters(originalSelectionLength);
      r := Success(detectedCaretPosition);
    }

    /** `getCaretPosition()`: runs the bound reader. */
    method GetCaretPosition() returns (r: Result<nat, Thrown>)
      requires el.Valid()
      modifies el`selection
      ensures el.Valid()
      ensures r == ReadCaret(getCaretPosition, browser, el.selectionApplies, old(el.selection), |el.value|)
      ensures el.selection == SelectionAfterRead(getCaretPosition, browser, old(el.selection))
    {
      match getCaretPosition
      case ReadWithInputSelectionStart =>
        var position := GetCaretPositionWithInputSelectionStart();
        r := Success(position);
      case ReadWithDocumentSelection =>
        var position := GetCaretPositionWithDocumentSelection();
        r := Success(position);
      case ReadWithWindowSelection =>
        r := GetCaretPositionWithWindowSelection();
    }

    /** `setSelectionRange(position, position)`. */
    method SetCaretPositionWithSetSelectionRange(position: nat) returns (thrown: Option<Thrown>)
      requires el.Valid()
      modifies el`selection
      ensures el.Valid()
      ensures thrown.None? <==> el.hasSetSelectionRange && el.selectionApplies
      ensures thrown.None? ==> el.selection == Caret(Min(position, |el.value|))
      ensures thrown.Some? ==> el.selection == old(el.selection)
    {
      thrown := el.SetSelectionRange(position, position);
    }

    /** Named for the window selection, but its body goes through the element's
        `createTextRange`, and so throws on an element without one. */
    method SetCaretPositionWithWindowSelection(position: nat) returns (thrown: Option<Thrown>)
      requires el.Valid()
      modifies el`selection
      ensures el.Valid()
      ensures thrown.None? <==> el.hasCreateTextRange
      ensures thrown.None? ==> el.selection == Caret(Min(position, |el.value|))
      ensures thrown.Some? ==> el.selection == old(el.selection)
    {
      thrown := el.SelectTextRangeAt(position);
    }

    /** Named for `createTextRange`, but its body walks `window.getSelection()` with `modify`:
        extend backward by line until the length stops changing, then `position` forward moves. */
    method SetCaretPositionWithCreateTextRange(position: nat) returns (thrown: Option<Thrown>)
      requires el.Valid()
      modifies el`selection
      ensures el.Valid()
      ensures thrown.None? <==> browser.hasSelectionModify
      ensures thrown.None? ==> el.selection == LineStartThenForward(old(el.selection), |el.value|, position)
      ensures thrown.None? ==> el.selection.Start() == Min(position, |el.value|)
      ensures thrown.Some? ==> el.selection == old(el.selection)
    {
      if !browser.hasSelectionModify {
        return Some(ModifyMissing);
      }
      ghost var s0 := el.selection;
      var selectionLength := 0;
      // a do-while: record the length, extend, and go round again while the length changed
      var repeat := true;
      while repeat
        invariant el.Valid() && el.selection.anchor == s0.anchor
        invariant el.selection == s0 || el.selection.focus == 0
        invariant !repeat ==> el.selection.focus == 0
        decreases el.selection.focus, repeat
      {
        selectionLength := el.selection.Length();
        el.selection := el.selection.ExtendBackwardLine();
        repeat := selectionLength != el.selection.Length();
      }
      var remaining := position;
      while remaining > 0
        invariant 0 <= remaining <= position
        invariant el.selection == LineStartThenForward(s0, |el.value|, position - remaining)
      {
        remaining := remaining - 1;
        el.selection := el.selection.MoveForwardCharacter(|el.value|);
      }
      thrown := None;
    }

    /** `setCaretPosition(position)`: runs the bound writer. */
    method SetCaretPosition(position: nat) returns (thrown: Option<Thrown>)
      requires Valid()
      modifies el`selection
      ensures Valid()
      ensures thrown.None? <==> WriterSucceeds(setCaretPosition, browser, el.selectionApplies)
      ensures thrown.None? ==> el.selection == WrittenSelection(setCaretPosition, old(el.selection), |el.value|, position)
      ensures thrown.Some? ==> el.selection == old(el.selection)
    {
      match setCaretPosition
      case WriteWithSetSelectionRange =>
        thrown := SetCaretPositionWithSetSelectionRange(position);
      case WriteWithCreateTextRange =>
        thrown := SetCaretPositionWithCreateTextRange(position);
      case WriteWithWindowSelection =>
        thrown := SetCaretPositionWithWindowSelection(position);
    }

    /** Puts the committed value back into the field and, when a caret was recorded, hands it to
        the bound writer; otherwise the caret stays where setting the value left it. */
    method RevertToPreviousValue() returns (thrown: Option<Thrown>)
      requires Valid()
      modifies el`value, el`selection
      ensures Valid()
      ensures el.value == oldValue
      ensures thrown.None? <==> caretPosition.None? || WriterSucceeds(setCaretPosition, browser, el.selectionApplies)
      ensures el.selection == SelectionAfterRevert(setCaretPosition, browser, el.selectionApplies, caretPosition, old(el.value), oldValue, old(el.selection))
      ensures (caretPosition.Some? && thrown.None?) ==>
        el.selection.Start() == caretPosition.value
    {
      el.SetValue(oldValue);
      if caretPosition.Some? {
        thrown := SetCaretPosition(caretPosition.value);
      } else {
        thrown := None;
      }
    }

    /** Commits `newValue`, then records the caret the bound reader reports; a reader that throws
        leaves the recorded caret as it was. */
    method UpdateCurrentValue(newValue: string) returns (thrown: Option<Thrown>)
      requires Valid()
      requires newValue == el.value && Passes(engine, pattern, newValue)
      modifies this`oldValue, this`caretPosition, this`validatedUnder, el`selection
      ensures Valid()
      ensures oldValue == newValue && validatedUnder == Some(pattern)
      ensures el.selection == SelectionAfterRead(getCaretPosition, browser, old(el.selection))
      ensures var r := ReadCaret(getCaretPosition, browser, el.selectionApplies, old(el.selection), |el.value|);
        caretPosition == (if r.Success? then Some(r.value) else old(caretPosition)) &&
        thrown == (if r.Success? then None else Some(r.error))
    {
      oldValue := newValue;
      validatedUnder := Some(pattern);
      var r := GetCaretPosition();
      if r.Success? {
        caretPosition := Some(r.value);
        thrown := None;
      } else {
        thrown := Some(r.error);
      }
    }

    /** `genericEventHandler`: one input, keyup or click event. */
    method GenericEventHandler(ctx: EventContext) returns (outcome: Outcome)
      requires Valid()
      modifies this`oldValue, this`caretPosition, this`validatedUnder, el`value, el`selection
      ensures Valid()
      ensures outcome.decision ==
        HandlerDecision(old(el.value), el.typeAttr, el.validity, browser, ctx.selectAllProbe, engine, pattern)
      // an exception from a guard or from the pattern test: nothing changes, the default is not prevented
      ensures outcome.decision.Abort? ==>
        outcome.thrown == Some(outcome.decision.thrown) &&
        oldValue == old(oldValue) && caretPosition == old(caretPosition) && validatedUnder == old(validatedUnder) &&
        el.value == old(el.value) && el.selection == old(el.selection)
      // commit: the field is left alone, the value and the caret the reader reports are recorded
      ensures outcome.decision.Commit? ==>
        oldValue == old(el.value) && el.value == old(el.value) && validatedUnder == Some(pattern) &&
        el.selection == SelectionAfterRead(getCaretPosition, browser, old(el.selection)) &&
        var r := ReadCaret(getCaretPosition, browser, el.selectionApplies, old(el.selection), |old(el.value)|);
        caretPosition == (if r.Success? then Some(r.value) else old(caretPosition)) &&
        outcome.thrown == (if r.Success? then None else Some(r.error))
      // revert: the state is kept, the field shows the committed value, the recorded caret is written back
      ensures outcome.decision.Revert? ==>
        oldValue == old(oldValue) && caretPosition == old(caretPosition) && validatedUnder == old(validatedUnder) &&
        el.value == old(oldValue) &&
        (outcome.thrown.None? <==> caretPosition.None? || WriterSucceeds(setCaretPosition, browser, el.selectionApplies)) &&
        el.selection == SelectionAfterRevert(setCaretPosition, browser, el.selectionApplies, caretPosition, old(el.value), oldValue, old(el.selection))
      // unless the handler aborted, the field shows the committed value, and a commit passed the test
      ensures !outcome.decision.Abort? ==> el.value == oldValue
      ensures outcome.decision.Commit? ==> Passes(engine, pattern, el.value)
      // the event's default effect is prevented exactly on a revert
      ensures outcome.preventedDefault <==> outcome.decision.Revert?
      // a recorded caret is written back exactly when the writer works
      ensures (outcome.decision.Revert? && caretPosition.Some? && outcome.thrown.None?) ==>
        el.selection.Start() == caretPosition.value
    {
      var preventedDefault := false;
      var newValue := el.value;
      var inputValidity := el.validity;
      ghost var decision := HandlerDecision(newValue, el.typeAttr, inputValidity, browser, ctx.selectAllProbe, engine, pattern);
      if newValue == "" && el.typeAttr != Some("text") && inputValidity.Some? && inputValidity.value.badInput {
        assert decision == Revert(UnverifiableInput);
        preventedDefault := true;
        var thrown := RevertToPreviousValue();
        return Outcome(Revert(UnverifiableInput), preventedDefault, thrown);
      }
      if newValue == "" {
        // on Opera this focuses the field and selects all of it, which on an empty field is the
        // caret at 0, where the selection already is
        var length := ValueLengthThroughSelection(browser.isOpera, ctx.selectAllProbe);
        if length.Failure? {
          assert decision == Abort(length.error);
          return Outcome(Abort(length.error), preventedDefault, Some(length.error));
        }
        if length.value != 0 {
          assert decision == Revert(SelectionNotEmpty);
          preventedDefault := true;
          var thrown := RevertToPreviousValue();
          return Outcome(Revert(SelectionNotEmpty), preventedDefault, thrown);
        }
      }
      var test := TestPattern(engine, pattern, newValue);
      match test
      case Failure(message) =>
        assert decision == Abort(ThrownString(message));
        outcome := Outcome(Abort(ThrownString(message)), preventedDefault, Some(ThrownString(message)));
      case Success(matched) =>
        if matched {
          assert decision == Commit;
          var thrown := UpdateCurrentValue(newValue);
          outcome := Outcome(Commit, preventedDefault, thrown);
        } else {
          assert decision == Revert(PatternMismatch);
          preventedDefault := true;
          var thrown := RevertToPreviousValue();
          outcome := Outcome(Revert(PatternMismatch), preventedDefault, thrown);
        }
    }
  }
}

=== FILE: dom.dfy ===
/** The part of the browser the directive talks to, reduced to explicit state and inputs. */
module Dom {
  import opened Wrappers
  import opened AbstractSelection

  /** What a call into the browser or the pattern test can throw. */
  datatype Thrown =
    | ThrownString(message: string)  // a string thrown by `throw`
    | TypeError(message: string)     // calling something that is not a function, or reading a property of undefined
    | InvalidStateError(message: string)  // the DOMException a selection method raises where selection does not apply

  /** The `validity` property of the element, reduced to the flag the directive reads. */
  datatype ValidityState = ValidityState(badInput: bool)

  /** What the directive learns from `navigator` and `window` for the whole page. */
  datatype Browser = Browser(
    isOpera: bool,            // `/Opera/i` matches `navigator.userAgent`
    hasSelectionModify: bool  // `window.getSelection()` gives a selection with a `modify` method
  )

  /** Where `val(v)` leaves the selection: unchanged when the text stays the same, otherwise the
      caret at the end of the new text, as HTML's value setter does. */
  function SelectionAfterSetValue(oldText: string, newText: string, s: Selection): (r: Selection)
    ensures s.Within(|oldText|) ==> r.Within(|newText|)
    ensures newText != oldText ==> r == Caret(|newText|)
    ensures newText == oldText ==> r == s
  {
    if newText == oldText then s else Caret(|newText|)
  }

  /** The bound field (`el.nativeElement`): its text, its selection, its validity and the
      selection methods it offers. The browser changes `value`, `selection` and `validity`
      before each event reaches the directive. */
  class InputElement {
    var value: string
    var selection: Selection
    var validity: Option<ValidityState>
    const typeAttr: Option<string>       // `attr('type')`, undefined when the attribute is absent
    const hasSetSelectionRange: bool     // `typeof setSelectionRange === 'function'`
    const hasCreateTextRange: bool       // `typeof createTextRange === 'function'`
    /** Whether HTML's selection API applies to the element's type: it does for text, search,
        URL, telephone and password fields, and not for others such as number or email fields,
        which still have `setSelectionRange` as a function. */
    const selectionApplies: bool

    ghost predicate Valid()
      reads this
    {
      selection.Within(|value|)
    }

    constructor (value: string, selection: Selection, validity: Option<ValidityState>,
                 typeAttr: Option<string>, hasSetSelectionRange: bool, hasCreateTextRange: bool,
                 selectionApplies: bool)
      requires selection.Within(|value|)
      ensures Valid()
      ensures this.value == value && this.selection == selection && this.validity == validity
      ensures this.typeAttr == typeAttr
      ensures this.hasSetSelectionRange == hasSetSelectionRange && this.hasCreateTextRange == hasCreateTextRange
      ensures this.selectionApplies == selectionApplies
    {
      this.value := value;
      this.selection := selection;
      this.validity := validity;
      this.typeAttr := typeAttr;
      this.hasSetSelectionRange := hasSetSelectionRange;
      this.hasCreateTextRange := hasCreateTextRange;
      this.selectionApplies := selectionApplies;
    }

    /** `val(v)`. */
    method SetValue(v: string)
      requires Valid()
      modifies this`value, this`selection
      ensures Valid()
      ensures value == v
      ensures selection == SelectionAfterSetValue(old(value), v, old(selection))
    {
      selection := SelectionAfterSetValue(value, v, selection);
      value := v;
    }

    /** `setSelectionRange(start, end)`: a TypeError when the element has no such method, and
        an InvalidStateError when selection does not apply to its type; otherwise both ends are
        clamped to the text and a start past the end is moved to the end. */
    method SetSelectionRange(start: nat, end: nat) returns (thrown: Option<Thrown>)
      requires Valid()
      modifies this`selection
      ensures Valid()
      ensures thrown.None? <==> hasSetSelectionRange && selectionApplies
      ensures !hasSetSelectionRange ==> thrown.Some? && thrown.value.TypeError?
      ensures hasSetSelectionRange && !selectionApplies ==> thrown.Some? && thrown.value.InvalidStateError?
      ensures thrown.None? ==> selection == Selection(Min(start, Min(end, |value|)), Min(end, |value|))
      ensures thrown.Some? ==> selection == old(selection)
    {
      if !hasSetSelectionRange {
        thrown := Some(TypeError("setSelectionRange is not a function"));
        return;
      }
      if !selectionApplies {
        thrown := Some(InvalidStateError("The input element's type does not support selection."));
        return;
      }
      var e := Min(end, |value|);
      selection := Selection(Min(start, e), e);
      thrown := None;
    }

    /** `createTextRange()`, then `collapse(true)`, `moveEnd` and `moveStart` by `position`
        characters and `select()`: the caret ends at `position`, clamped to the text; a TypeError
        when the element has no `createTextRange`. */
    method SelectTextRangeAt(position: nat) returns (thrown: Option<Thrown>)
      requires Valid()
      modifies this`selection
      ensures Valid()
      ensures thrown.None? <==> hasCreateTextRange
      ensures thrown.None? ==> selection == Caret(Min(position, |value|))
      ensures thrown.Some? ==> selection == old(selection)
    {
      if !hasCreateTextRange {
        thrown := Some(TypeError("createTextRange is not a function"));
        return;
      }
      selection := Caret(Min(position, |value|));
      thrown := None;
    }
  }
}

=== FILE: pattern.dfy ===
/** The pattern test of the directive: compile the bound pattern, then match a candidate value. */
module PatternTest {
  import opened Wrappers

  /** The JavaScript `RegExp` library, which the model does not contain.
      `compiles(p)` says whether `new RegExp(p)` succeeds and `test(p, v)` is what
      the compiled expression's `test(v)` then returns. */
  datatype RegexEngine = RegexEngine(compiles: string -> bool, test: (string, string) -> bool)

  /** The string `testPattern` throws for a pattern that does not compile. */
  function InvalidRegExMessage(pattern: string): string
  {
    "Invalid RegEx string parsed for ngPatternRestrict: " + pattern
  }

  /** `testPattern(value)`: compiles the bound pattern afresh on every call and matches `value`.
      An unbound pattern (`undefined`) compiles to the empty expression, which matches every
      string. A pattern that does not compile is an error thrown to the caller, never a `false`. */
  function TestPattern(engine: RegexEngine, pattern: Option<string>, value: string): (r: Result<bool, string>)
    ensures r.Failure? <==> pattern.Some? && !engine.compiles(pattern.value)
    ensures r.Failure? ==> r.error == InvalidRegExMessage(pattern.value)
    ensures pattern.None? ==> r == Success(true)
    ensures r.Success? && pattern.Some? ==> r.value == engine.test(pattern.value, value)
  {
    match pattern
    case None => Success(true)
    case Some(p) =>
      if !engine.compiles(p) then Failure(InvalidRegExMessage(p))
      else Success(engine.test(p, value))
  }

  /** `value` passes `testPattern` against `pattern` without an error. */
  predicate Passes(engine: RegexEngine, pattern: Option<string>, value: string)
  {
    TestPattern(engine, pattern, value) == Success(true)
  }
}

=== FILE: selection.dfy ===
/** An explicit abstract selection inside one single-line text field, and the pure
    specification of the loops that walk it one step at a time. */
module AbstractSelection {

  function Min(a: nat, b: nat): nat
  {
    if a <= b then a else b
  }

  /** A selection as two character offsets into the field's text: `anchor`, where the selection
      began, and `focus`, where it ends and where `Selection.modify` acts. Offset 0 is the start of
      the field, which is also where extending backward stops. */
  datatype Selection = Selection(anchor: nat, focus: nat) {

    predicate Within(limit: nat)
    {
      anchor <= limit && focus <= limit
    }

    /** The caret offset: the start of the selected range, as `selectionStart` reports it. */
    function Start(): nat
    {
      Min(anchor, focus)
    }

    function End(): nat
    {
      if anchor <= focus then focus else anchor
    }

    /** `String(s).length`: the number of selected characters. */
    function Length(): nat
    {
      End() - Start()
    }

    /** `modify('extend', 'backward', 'character')`: the focus moves one character back,
        and stays put at the start of the field. */
    function ExtendBackwardCharacter(): Selection
    {
      Selection(anchor, if focus == 0 then 0 else focus - 1)
    }

    /** `modify('extend', 'backward', 'line')`: the field has one line, so the focus moves to its start. */
    function ExtendBackwardLine(): Selection
    {
      Selection(anchor, 0)
    }

    /** `modify('move', 'forward', 'character')`: the selection collapses onto the focus, which
        moves one character forward, and stays put at the end of the text (`limit`). */
    function MoveForwardCharacter(limit: nat): Selection
    {
      Caret(Min(focus + 1, limit))
    }

    /** `modify('extend', 'forward', 'character')`: the focus moves one character forward,
        and stays put at the end of the text. */
    function ExtendForwardCharacter(limit: nat): Selection
    {
      Selection(anchor, Min(focus + 1, limit))
    }

    /** `collapseToStart()`. */
    function CollapseToStart(): Selection
    {
      Caret(Start())
    }
  }

  /** A collapsed selection: the caret at `offset`. */
  function Caret(offset: nat): Selection
  {
    Selection(offset, offset)
  }

  /** The length of the text of a range over the selected characters of a field holding `limit`
      characters, after `moveStart('character', count)`: the start moves `count` characters, clamped to
      the field's text, and drags the end along when it passes it. Moving the start forward by the
      distance to the end of the text, or more, empties the range; moving it back to the start of
      the field measures the distance from there to the selection's end. */
  function MovedStartRangeLength(s: Selection, limit: nat, count: int): (r: nat)
    ensures s.Within(limit) ==> r <= limit
    ensures s.Within(limit) && count >= limit - s.Start() ==> r == 0
    ensures count + s.Start() <= 0 ==> r == s.End()
  {
    var start := if s.Start() + count < 0 then 0 else if s.Start() + count > limit then limit else s.Start() + count;
    var end := if s.End() < start then start else s.End();
    end - start
  }

  /** The extend-backward do-while loop of the window-selection reader, run from selection `s`
      with the flag `didReachZero` at `reachedZero`. Each step records the length, extends the
      focus back by one character and raises the flag when the length became 0; the loop stops
      at the first step that leaves the length unchanged. The result is the final
      `(selectionLength, didReachZero)`. The loop only stops once the focus is at the start of
      the field, so the last recorded length is the anchor offset, and the flag is raised exactly
      when the focus passed over the anchor on the way back or the anchor is at the start. */
  function ScanBackward(s: Selection, reachedZero: bool): (r: (nat, bool))
    ensures r == (s.anchor, reachedZero || s.anchor < s.focus || s.anchor == 0)
    decreases s.focus
  {
    var selectionLength := s.Length();
    var t := s.ExtendBackwardCharacter();
    var didReachZero := reachedZero || t.Length() == 0;
    if selectionLength == t.Length() then (selectionLength, didReachZero)
    else ScanBackward(t, didReachZero)
  }

  /** The position the window-selection reader detects for selection `s`: the last recorded
      length if the length hit 0 during the loop, else that length minus the original length.
      In every case this is the start of the selection. */
  function WindowSelectionCaret(s: Selection): (r: int)
    ensures r == s.Start()
  {
    var (selectionLength, didReachZero) := ScanBackward(s, false);
    if didReachZero then selectionLength else selectionLength - s.Length()
  }

  /** Where the writer that walks the window selection leaves it for `position`: its
      extend-backward-by-line loop puts the focus at the start of the field, and then each of the
      `position` forward moves collapses the selection and advances it one character. */
  function LineStartThenForward(s: Selection, limit: nat, position: nat): (r: Selection)
    ensures r.Start() == Min(position, limit)
    ensures s.Within(limit) ==> r.Within(limit)
    ensures position > 0 ==> r == Caret(Min(position, limit))
  {
    if position == 0 then Selection(s.anchor, 0) else Caret(Min(position, limit))
  }
}

=== FILE: strategy.dfy ===
/** Feature detection: which caret reader and which caret writer a directive instance binds. */
module CaretStrategy {

  /** What calling a detection probe did: it threw, or it returned a value whose
      JavaScript truthiness is `truthy`. */
  datatype ProbeOutcome = Threw | Returned(truthy: bool)

  /** `notThrows(testFn, shouldReturnTruthy)`: false when the probe throws, otherwise
      `result || !shouldReturnTruthy`. */
  function NotThrows(probe: ProbeOutcome, shouldReturnTruthy: bool): (r: bool)
    ensures probe.Threw? ==> !r
    ensures !shouldReturnTruthy ==> (r <==> probe.Returned?)
    ensures shouldReturnTruthy ==> (r <==> probe == Returned(true))
  {
    match probe
    case Threw => false
    case Returned(truthy) => truthy || !shouldReturnTruthy
  }

  /** The caret readers, named after the methods `getCaretPosition` is bound to. */
  datatype CaretReader = ReadWithInputSelectionStart | ReadWithDocumentSelection | ReadWithWindowSelection

  /** The caret writers, named after the methods `setCaretPosition` is bound to. The names are
      those of the source methods, whose bodies do not match them (see the directive). */
  datatype CaretWriter = WriteWithSetSelectionRange | WriteWithCreateTextRange | WriteWithWindowSelection

  /** `detectGetCaretPositionMethods`: the selectionStart probe is tried first and only has to not
      throw; the `document.selection` probe must also return something truthy; otherwise the
      window-selection reader is the fallback. */
  function DetectGetCaretPositionMethod(selectionStartProbe: ProbeOutcome, documentSelectionProbe: ProbeOutcome): (r: CaretReader)
    ensures r == ReadWithInputSelectionStart <==> selectionStartProbe.Returned?
    ensures r == ReadWithDocumentSelection <==> selectionStartProbe.Threw? && documentSelectionProbe == Returned(true)
    ensures r == ReadWithWindowSelection <==> selectionStartProbe.Threw? && documentSelectionProbe != Returned(true)
  {
    if NotThrows(selectionStartProbe, false) then ReadWithInputSelectionStart
    else if NotThrows(documentSelectionProbe, true) then ReadWithDocumentSelection
    else ReadWithWindowSelection
  }

  /** `detectSetCaretPositionMethods`: `setSelectionRange` when the element has it as a function,
      else the writer named for `createTextRange` when the element has that, else the remaining one. */
  function DetectSetCaretPositionMethod(hasSetSelectionRange: bool, hasCreateTextRange: bool): (r: CaretWriter)
    ensures r == WriteWithSetSelectionRange <==> hasSetSelectionRange
    ensures r == WriteWithCreateTextRange <==> !hasSetSelectionRange && hasCreateTextRange
    ensures r == WriteWithWindowSelection <==> !hasSetSelectionRange && !hasCreateTextRange
  {
    if hasSetSelectionRange then WriteWithSetSelectionRange
    else if hasCreateTextRange then WriteWithCreateTextRange
    else WriteWithWindowSelection
  }

  /** As the source calls it, the selectionStart probe's parameter shadows the element and the
      probe is called with no argument, so it throws: the selectionStart reader is then never
      bound, and the reader is `document.selection` where that is truthy, else the window selection. */
  lemma ThrowingSelectionStartProbe(documentSelectionProbe: ProbeOutcome)
    ensures DetectGetCaretPositionMethod(Threw, documentSelectionProbe) ==
      (if documentSelectionProbe == Returned(true) then ReadWithDocumentSelection else ReadWithWindowSelection)
  {
  }
}

=== FILE: wrappers.dfy ===
/** Failure-compatible wrappers shared by the other modules. */
module Wrappers {

  /** A value that may be missing, as JavaScript's `undefined`. */
  datatype Option<+T> = None | Some(value: T)

  /** A computation that returned `value` or threw `error`. */
  datatype Result<+T, +E> = Success(value: T) | Failure(error: E)
}
